=== FILE: README.md ===
# SyncCustomerDataAPI in Dafny

This is a model of the one-way, incremental customer sync of `SyncCustomerDataAPI`. The sync runs in this order:

1. It loads the last sync date, the **watermark**.
2. It pages through the source system (API1) for customers updated since the watermark.
3. It splits the customers into chunks.
4. It reconciles every customer with the destination (API2). For each one it looks the customer up by name, updates the first match, or creates the customer.
5. It computes the new watermark from the fetched customers, saves it, and logs its statistics counters.

The model is in six modules, one file each:

| file | module | models |
|---|---|---|
| `seqs.dfy` | `Wrappers`, `Seqs` | `Option`, `Result`, `Flatten` and `Min` |
| `customers.dfy` | `Customers` | the source record, the destination record and the payload sent to the destination |
| `watermark.dfy` | `Watermark` | `calculateMaxUpdatedAt` and the `last_sync_date.json` slot (utils.js) |
| `source_api.dfy` | `SourceApi` | the pagination loop `fetchAllAPI1Customers` (api.js) |
| `destination.dfy` | `Destination` | `makeRequest` with its 429 retry, and the create/read/update/delete wrappers (data.js) |
| `sync.dfy` | `Sync` | `chunkArray`, `syncCustomerData`, `processCustomerChunk`, `syncCustomers` and the module counters (syncCustomers.js) |

Everything outside the program becomes a parameter:

- `Date.parse` is an uninterpreted `string -> Option<int>`. `None` stands for NaN, and every comparison with NaN is false.
- The source system is a function from page requests to pages or failures. `ServeList` is one concrete choice: a fixed list served in slices of 10.
- The destination answers each call from a finite script of responses: data, 429 with a `retry-after`, or another failure. Each record has its own script, for its lookup and for its write.
- The file system is a three-state slot: missing, corrupt, or holding a saved date. A failing write is an optional fault. A fault before the file is opened leaves the file as it was. A fault after the `w` flag has truncated it leaves a file that no longer parses.
- The counters that live at module level are passed into a run and returned by it.

The pagination loop `FetchAllCustomers` and the run `SyncCustomers` that calls it are methods. The pagination loop carries loop invariants. Everything else is a pure function, with lemmas for the properties that relate calls.

## Model

| member | source | states |
|---|---|---|
| Customers.PayloadCopiesBusinessFields | syncCustomers.js:70-75 | name, activeAt, arr and teamMemberId are each copied into the payload field of the same name, and the payload carries no id. Two records give the same payload exactly when their name, activeAt, arr and teamMemberId agree, so updatedAt is never sent. |
| Watermark.ScanPrefix | utils.js:48-60 | After any prefix: the noNewUpdates flag is set exactly when the running result is null, which is exactly when no customer so far has a truthy updatedAt. A non-null result is the updatedAt of a customer in the prefix. |
| Watermark.CalculateMaxUpdatedAt | utils.js:47-68 | Null exactly when no customer has a truthy updatedAt. Otherwise a non-empty string that is some customer's updatedAt. |
| Watermark.StepTakesAccepted | utils.js:56-59 | One loop pass replaces the result exactly when the customer is accepted, meaning it has a truthy updatedAt and is either the first such customer or parses strictly later than the watermark. Otherwise the pass leaves the loop state unchanged. |
| Watermark.ScanIsLastAccepted | utils.js:52-60 | The result is the updatedAt of the last accepted customer in list order. It is null when no customer is accepted. |
| Watermark.UnparseableWatermarkTakesFirst | utils.js:50-59 | With a null or unparseable watermark, the result is the first truthy updatedAt in list order. |
| Watermark.SortedInputGivesMaximum | utils.js:41-60 | The documented maximum holds under three conditions: all dates parse, they are sorted ascending, and the last parses later than the watermark. Then the result is the last updatedAt, and it is at least every customer's date. |
| Watermark.ResultNeedNotBeMaximum | utils.js:41-60 | A counterexample to "maximum": two customers, both newer than the watermark, with the older one last in the list. The older one is returned. |
| Watermark.WatermarkCanMoveBackwards | utils.js:52-59 | One customer older than the watermark is still returned, so the saved watermark can decrease. |
| Watermark.LoadLastSyncDate | utils.js:31-38 | A non-null result comes only from a file that holds exactly that date. A saved file loads its date, even when that date is null. |
| Watermark.SaveLastSyncDate | utils.js:22-24 | A save throws exactly when the write faults, and it throws that fault's message. Without a fault, the file loads back as the saved date. A fault before the open leaves the file unchanged. A fault after truncation leaves a file that loads as null. |
| Watermark.SaveThenLoad | utils.js:22-38 | A missing or corrupt file loads as null and never fails. A save without a fault succeeds, and loading afterwards returns exactly the saved date, whatever was stored before. A fault before the open keeps the stored date. A fault after truncation loses it. |
| SourceApi.FetchAllCustomers | api.js:11-42 | Request i has offset 10·i, and every request carries updatedAt = lastSyncDate. Every answer before the last is a full page, and the last is final. The result is either the concatenation of all pages in request order, or the last failure's message behind "Failed to fetch customers from API1: " with no partial result. |
| SourceApi.SlicesConcatenate | api.js:14-35 | Against a list served in slices of 10, the pages of the first k requests concatenate to the list's prefix of length 10·k, clipped to the list. |
| SourceApi.ListSourceFetchesEverything | api.js:14-35 | Against a list of n records served in slices of 10, the loop returns exactly the list after n/10 + 1 requests. |
| SourceApi.NinetyFiveRecordsTakeTenRequests | api.js:14-35 | 95 records take 10 requests and come back unchanged. |
| Destination.Backoff | data.js:104-105 | The delay requested from the timer after a 429 is 2^retryAfter · 1000 ms, and at least 1000 ms. |
| Destination.TimerDelay | data.js:107 | The delay setTimeout actually waits lies between 1 ms and 2^31 - 1 ms. A requested delay inside that range is kept. |
| Destination.LargeHintRetriesAtOnce | data.js:104-107 | With retry-after at most 21, the timer waits the full backoff. From 22 on, the requested delay exceeds the timer's range and the retry follows after 1 ms. |
| Destination.MakeRequest | data.js:86-115 | The call stays unsettled exactly when every scripted answer is a 429. In that case it has waited once for each answer. The first request is the original. Every re-issue is the original with its params reset to {}. There is one wait per 429, equal to its backoff. The outcome is decided by the first answer that is not a 429: its data, or its message behind "Request failed: ". |
| Destination.FirstSettlingAnswerDecides | data.js:99-112 | There is no attempt cap. If answer i is the first non-429, the call settles with that answer after exactly i + 1 requests. Its total wait is the sum of the backoffs of the preceding 429s. |
| Destination.OneRateLimitThenSuccess | data.js:102-109 | A 429 with retry-after 1 followed by data waits 2000 ms, sends the request twice and returns the data unchanged. |
| Destination.Rethrow | data.js:16-19 | Rethrowing keeps the requests, the waits and any success. It puts the wrapper's prefix in front of any error message. |
| Destination.CreateCustomer | data.js:11-20 | Every request is a POST of the payload to the endpoint, with no params. A non-empty script makes it send a first request, the POST of the payload to the endpoint. It sends one request per answer it consumes and waits the backoff of each preceding 429. The outcome is decided by the first answer that is not a 429. A success returns that answer's data unchanged. A failure is exactly "Failed to create customer: Request failed: " followed by the answer's message. |
| Destination.ReadCustomer | data.js:29-38 | Every request is a GET to the endpoint with no body. The first carries params {name}, and every retry carries {}. A non-empty script makes it send a first request, the GET to the endpoint with params {name}. It sends one request per answer it consumes and waits the backoff of each preceding 429. The outcome is decided by the first answer that is not a 429. A success returns that answer's data unchanged. A failure is exactly "Failed to read customer: Request failed: " followed by the answer's message. |
| Destination.UpdateCustomer | data.js:47-56 | Every request is a PUT of the payload to endpoint/id, with no params. A non-empty script makes it send a first request, the PUT of the payload to endpoint/id. It sends one request per answer it consumes and waits the backoff of each preceding 429. The outcome is decided by the first answer that is not a 429. A success returns that answer's data unchanged. A failure is exactly "Failed to update customer: Request failed: " followed by the answer's message. |
| Destination.DeleteCustomer | data.js:65-74 | Every request is a DELETE to endpoint/id, with the payload as body. A non-empty script makes it send a first request, the DELETE to endpoint/id. It sends one request per answer it consumes and waits the backoff of each preceding 429. The outcome is decided by the first answer that is not a 429. A success returns that answer's data unchanged. A failure is exactly "Failed to delete customer: Request failed: " followed by the answer's message. |
| Destination.RetriedReadLosesNameFilter | data.js:86-109 | A read answered first by a 429 sends its second request without the name filter. |
| Destination.WrapperDecided | data.js:11-74 | Every wrapper's outcome is the first settling answer. Its data is returned unchanged, or its message is thrown behind the wrapper's prefix and "Request failed: ". This holds for any request, script and prefix. |
| Sync.ChunkFrom | syncCustomers.js:100-104 | The chunks from index i flatten back to the array from i. Each chunk holds between 1 and chunkSize elements, and all but the last hold exactly chunkSize. The chunk count c satisfies (c-1)·size < n-i ≤ c·size, which makes it the ceiling of (n-i)/size. |
| Sync.ChunkArray | syncCustomers.js:100-108 | An empty array fails with the TypeError from chunks[0].length. Otherwise it returns chunks that flatten to the array, are bounded as in ChunkFrom and number ceil(n/chunkSize). numChunks becomes min(chunkSize, n), not the chunk count, and the other counters are kept. |
| Sync.Bump | syncCustomers.js:77-90 | A settled record raises updated+created+errors by exactly 1. A record that has not settled leaves the counters unchanged. No counter decreases, and numChunks is untouched. |
| Sync.SyncCustomerData | syncCustomers.js:66-91 | A record settles exactly when its lookup settles and, after a successful lookup, its write settles. The first request is the name lookup, and every GET it sends is that lookup or its retry. |
| Sync.FoundCustomerIsUpdated | syncCustomers.js:77-80 | When the lookup returns matches, the record sends no POST. It sends a PUT to endpoint/id of the first match, with the payload plus that id. It counts as updated exactly when the PUT succeeds and as an error exactly when the PUT fails. |
| Sync.MissingCustomerIsCreated | syncCustomers.js:81-84 | When the lookup returns no match, the record sends no PUT. It sends a POST of the bare payload to the endpoint. It counts as created exactly when the POST succeeds and as an error exactly when the POST fails. |
| Sync.RecordWritesOnePayload | syncCustomers.js:68-84 | Whatever the answers, a record causes creates or updates but not both. A create carries exactly the record's payload, and an update carries that payload plus an id. |
| Sync.FailedLookupOnlyCountsError | syncCustomers.js:67-90 | A failed lookup counts one error, sends only GETs and does not propagate. |
| Sync.Apply | syncCustomers.js:55-58 | Folding the outcomes settles exactly when the fold started settled and every outcome settled. When every outcome settled, the settled count grows by exactly one per record, and no counter decreases. |
| Sync.ApplyAddsCounts | syncCustomers.js:55-58 | The counters after a batch are the starting counters plus the number of updated, created and errored outcomes. They therefore depend only on the multiset of outcomes, not on the order the promises finish in. |
| Sync.ProcessRecords | syncCustomers.js:55-58 | Processing a chunk settles exactly when the fold started settled and every record settles. It then raises updated+created+errors by the chunk's length. No counter decreases. |
| Sync.ApplyAppend | syncCustomers.js:55-58 | Folding two batches of outcomes one after the other is the same as folding their concatenation. |
| Sync.TalliesConcat | syncCustomers.js:56 | Each record's outcome depends only on its own answers, so the outcomes of a concatenation are the concatenated outcomes. |
| Sync.ProcessRecordsAppend | syncCustomers.js:55-58 | Processing xs and then ys is the same as processing xs + ys. |
| Sync.ProcessChunks | syncCustomers.js:25 | Processing every chunk is the same as processing the flattened records. |
| Sync.CountersIgnoreOrder | syncCustomers.js:25 | Processing two parts of a batch in either order gives the same counters and the same settlement. |
| Sync.CompleteRun | syncCustomers.js:16-37 | A fetch failure ends the run in the catch: the store and the counters are untouched and the fetch error is reported. An empty fetch ends it with the chunks[0] TypeError. The run reports its statistics exactly when four things hold: the fetch succeeded, it was non-empty, every record settled, and the save did not fail. It then saves calculateMaxUpdatedAt of the fetched customers, updated+created+errors has grown by the number of customers, and numChunks = min(chunkSize, n). A save fault aborts the run with the fault's message. Any run that does not report leaves the store untouched, except for one case: a write that faulted after truncation leaves a corrupt file. |
| Sync.SyncCustomers | syncCustomers.js:16-37 | The whole run: the extraction uses the loaded watermark and behaves as FetchAllCustomers states, and the rest behaves as CompleteRun states. |
| Sync.NoTimestampsEraseWatermark | syncCustomers.js:27-28 | A reported run over customers none of which has a truthy updatedAt saves null, and the next load yields null. |
| Sync.SecondRunAccumulates | syncCustomers.js:6-37 | Take two runs, each on a non-empty batch whose records all settle, and neither save faults. Both runs report. updated, created and errors are never reset, so after the second run updated+created+errors covers both batches. numChunks is overwritten and reflects only the second batch. The second run's watermark is computed from the one the first run saved. |

## Where the code and its description differ

The model follows the code in each of these cases.

- The doc comment of `calculateMaxUpdatedAt` promises the maximum `updatedAt`. The loop compares each candidate with the old watermark, not with the running result, so it returns the last customer accepted in list order. That customer need not be the newest, and it can be older than the watermark (`ResultNeedNotBeMaximum`, `WatermarkCanMoveBackwards`). The maximum is proved only under the hypotheses of `SortedInputGivesMaximum`.
- The counters are module-level and no run resets them, so the updated, created and error counts of a second run include the first (`SecondRunAccumulates`).
- `numChunks` is overwritten by every run whose fetch returns at least one customer. It holds the length of that run's first chunk, not the number of chunks. An empty fetch throws at `chunks[0].length` before the assignment, so it keeps the earlier value.
- Statistics are logged only after the watermark was saved. A failed save skips them.
- `Promise.all(customerChunks.map(...))` starts every chunk at once. Chunking does not limit concurrency.
- A retried request after a 429 drops its query parameters, so a retried lookup runs without its name filter.
- A run that fetches customers but finds no truthy `updatedAt` among them saves `null`. That erases the watermark rather than keeping it, so the next run fetches everything (`NoTimestampsEraseWatermark`).
- The exponential backoff is not honoured for large hints. From `retry-after: 22` on, the requested delay exceeds what `setTimeout` accepts, and the retry follows after 1 ms (`LargeHintRetriesAtOnce`).

## Left out

- axios itself, the request headers (including the malformed `Content-Type` at data.js:93), API keys and environment lookups. Endpoints are plain strings.
- logger.js and every log line, including the inverted "No new updates" message (utils.js:62-63). No logic depends on them.
- Timers: the `setTimeout` wait in `makeRequest` and the unused `sleep`. Waits are recorded as numbers of milliseconds.
- Sync.ProcessChunks: the chunks, and the records within a chunk, run concurrently. The model folds them sequentially. Only order-independent facts are claimed: `ApplyAddsCounts` and `CountersIgnoreOrder`. Interleavings at the destination, such as two same-name records both creating, are not modelled. Each record's answers are fixed by its own script.
- Sync.ChunkArray: `MAX_CONCURRENT_REQUESTS` comes from the environment as a string, so `i += chunkSize` concatenates in JavaScript. The model takes a positive integer chunk size instead.
- Destination.Backoff: `retry-after` is a natural number. A missing or non-numeric header, which yields a NaN wait, is not modelled. Neither is a negative header: `parseInt("-1", 10)` gives a 500 ms wait. The recorded waits are the delays requested from `setTimeout`. Node clamps any delay above 2^31 - 1 ms to 1 ms (`TimerDelay`), so retry-after ≥ 22 retries after about 1 ms (`LargeHintRetriesAtOnce`). The waits in `MakeRequest`'s trace are not passed through that clamp.
- The top-level `await syncCustomers()` at syncCustomers.js:110 and the `statistics` logging function. Its four log lines are represented by the counters a `Reported` run returns.
- `JSON.stringify`/`JSON.parse` and `fs`. The file is the slot `StoreFile`. A failed write is one of two faults: before the open, or after the truncation. A partial write is taken never to parse, because the JSON text ends with its closing brace.
- SourceApi.FetchAllCustomers: the model covers only sources that give a final answer at some offset (the ghost `bound`). A source that always returns full pages keeps the JavaScript loop running forever.
- Destination.MakeRequest: a script that runs out while still rate limited stands for a call that never settles. Its outcome is `None`, and a run that reaches one ends `Stalled`.
- The destination's answers are chosen per source record (`Answers`), so two identical records receive the same answers.

=== FILE: customers.dfy ===
/** The customer records exchanged between the source system (API1) and the destination (API2). */
module Customers {
  import opened Wrappers

  /** A customer as listed by the source. `updatedAt` is `None` when the field is missing or null. */
  datatype SourceRecord = SourceRecord(
    name: string,
    activeAt: string,
    arr: int,
    teamMemberId: int,
    updatedAt: Option<string>)

  /** A customer as stored by the destination; the engine only reads its `id`. */
  datatype DestinationRecord = DestinationRecord(
    id: string,
    name: string,
    activeAt: string,
    arr: int,
    teamMemberId: int)

  /** The JSON body sent to the destination: the four business fields, plus `id` on an update. */
  datatype Payload = Payload(
    name: string,
    activeAt: string,
    arr: int,
    teamMemberId: int,
    id: Option<string>)

  /** The truthiness test `if (customer.updatedAt ...)`: present and not the empty string. */
  predicate HasUpdatedAt(r: SourceRecord) {
    r.updatedAt.Some? && r.updatedAt.value != ""
  }

  /** The object literal built by `syncCustomerData` from a source record. */
  function ToPayload(r: SourceRecord): Payload {
    Payload(r.name, r.activeAt, r.arr, r.teamMemberId, None)
  }

  /** `api2CustomerData.id = existing[0].id` */
  function WithId(p: Payload, id: string): Payload {
    p.(id := Some(id))
  }

  /** Each business field is copied into its namesake, and two source records yield the same
      payload exactly when they agree on those four fields: `updatedAt` never reaches the
      destination, and no `id` is invented. */
  lemma PayloadCopiesBusinessFields(a: SourceRecord, b: SourceRecord)
    ensures ToPayload(a).name == a.name && ToPayload(a).activeAt == a.activeAt
    ensures ToPayload(a).arr == a.arr && ToPayload(a).teamMemberId == a.teamMemberId
    ensures ToPayload(a).id.None?
    ensures ToPayload(a) == ToPayload(b) <==>
      a.name == b.name && a.activeAt == b.activeAt && a.arr == b.arr && a.teamMemberId == b.teamMemberId
  {
  }
}

=== FILE: destination.dfy ===
/** The destination client of data.js: `makeRequest` with its 429 retry, and the four
    wrappers that build each request and rethrow with their own prefix. */
module Destination {
  import opened Wrappers
  import opened Customers

  datatype Verb = Get | Post | Put | Delete

  /** What `makeRequest` hands to axios; headers are left out. `body` is `customerData`
      (null for a read) and `params` the query string object. */
  datatype HttpRequest = HttpRequest(verb: Verb, url: string, body: Option<Payload>, params: map<string, string>)

  /** One answer of the destination: the data, HTTP 429 with its `retry-after` in seconds,
      or any other failure (another status, or no response at all). */
  datatype Response<+D> = Ok(data: D) | TooManyRequests(retryAfter: nat) | Failed(message: string)

  /** The trace of one `makeRequest` against a finite script of answers: the requests sent,
      the delays (ms) requested from the timer between them, and the outcome; `None` when the script ends while the
      call is still being rate limited, i.e. the call has not settled. */
  datatype Exchange<+D> = Exchange(outcome: Option<Result<D, string>>, sent: seq<HttpRequest>, waits: seq<nat>)

  /** Every answer of the script is a 429. */
  ghost predicate AllRateLimited<D>(script: seq<Response<D>>) {
    forall i :: 0 <= i < |script| ==> script[i].TooManyRequests?
  }

  const RequestErrorPrefix := "Request failed: "
  const CreateErrorPrefix := "Failed to create customer: "
  const ReadErrorPrefix := "Failed to read customer: "
  const UpdateErrorPrefix := "Failed to update customer: "
  const DeleteErrorPrefix := "Failed to delete customer: "

  function Pow2(n: nat): (p: nat)
    ensures p >= 1
  {
    if n == 0 then 1 else 2 * Pow2(n - 1)
  }

  /** `Math.pow(2, retryAfter) * 1000`, the delay requested from `setTimeout`: exponential in
      the hint, not in the attempt count. */
  function Backoff(retryAfter: nat): (ms: nat)
    ensures ms >= 1000
  {
    Pow2(retryAfter) * 1000
  }

  /** The largest delay Node's `setTimeout` honours, 2^31 - 1 ms. */
  const TimerMax: nat := 0x7fff_ffff

  /** The delay Node's `setTimeout` actually waits: a requested delay above `TimerMax` (or
      below 1) is replaced by 1 ms. */
  function TimerDelay(ms: nat): (d: nat)
    ensures 1 <= d <= TimerMax
    ensures 1 <= ms <= TimerMax ==> d == ms
  {
    if ms < 1 || ms > TimerMax then 1 else ms
  }

  lemma {:induction false} Pow2Monotone(m: nat, n: nat)
    requires m <= n
    ensures Pow2(m) <= Pow2(n)
    decreases n
  {
    if m < n {
      Pow2Monotone(m, n - 1);
    }
  }

  lemma {:induction false} Pow2Sum(a: nat, b: nat)
    ensures Pow2(a + b) == Pow2(a) * Pow2(b)
    decreases a
  {
    if a > 0 {
      Pow2Sum(a - 1, b);
    }
  }

  lemma Pow2At21And22()
    ensures Pow2(21) == 2097152 && Pow2(22) == 4194304
  {
    assert Pow2(2) == 4;
    Pow2Sum(2, 2);
    Pow2Sum(4, 4);
    Pow2Sum(8, 8);
    Pow2Sum(16, 4);
    assert Pow2(20) == 1048576;
  }

  /** The timer honours the backoff for hints up to `retry-after: 21`; from 22 on the
      requested delay exceeds its range and the retry follows after 1 ms. */
  lemma LargeHintRetriesAtOnce(retryAfter: nat)
    ensures retryAfter <= 21 ==> TimerDelay(Backoff(retryAfter)) == Backoff(retryAfter)
    ensures retryAfter >= 22 ==> TimerDelay(Backoff(retryAfter)) == 1
  {
    if retryAfter <= 21 {
      Pow2Monotone(retryAfter, 21);
      Pow2At21And22();
    } else {
      Pow2Monotone(22, retryAfter);
      Pow2At21And22();
    }
  }

  /** The request re-issued after a 429: `makeRequest(url, method, customerData)` with the
      fourth argument defaulting back to `{}`. */
  function Retry(req: HttpRequest): HttpRequest {
    req.(params := map[])
  }

  /** The value or error a settling answer gives the caller. */
  function Settle<D>(resp: Response<D>): Result<D, string>
    requires !resp.TooManyRequests?
  {
    match resp
    case Ok(d) => Success(d)
    case Failed(m) => Failure(RequestErrorPrefix + m)
  }

  /** `makeRequest`, answered in turn by `script`. */
  function MakeRequest<D>(req: HttpRequest, script: seq<Response<D>>): (x: Exchange<D>)
    ensures x.outcome.None? <==> AllRateLimited(script)
    ensures |x.sent| == |x.waits| + (if x.outcome.Some? then 1 else 0) && |x.sent| <= |script|
    ensures x.outcome.None? ==> |x.waits| == |script|
    ensures forall j :: 0 <= j < |x.waits| ==>
      script[j].TooManyRequests? && x.waits[j] == Backoff(script[j].retryAfter)
    ensures x.outcome.Some? ==>
      !script[|x.waits|].TooManyRequests? && x.outcome.value == Settle(script[|x.waits|])
    ensures |script| > 0 ==> |x.sent| > 0 && x.sent[0] == req
    ensures forall j :: 0 < j < |x.sent| ==> x.sent[j] == Retry(req)
    decreases |script|
  {
    if script == [] then Exchange(None, [], [])
    else match script[0]
      case TooManyRequests(r) =>
        var rest := MakeRequest(Retry(req), script[1..]);
        Exchange(rest.outcome, [req] + rest.sent, [Backoff(r)] + rest.waits)
      case _ => Exchange(Some(Settle(script[0])), [req], [])
  }

  function Sum(xs: seq<nat>): nat {
    if xs == [] then 0 else xs[0] + Sum(xs[1..])
  }

  /** The total backoff over a run of 429 answers. */
  function TotalBackoff<D>(script: seq<Response<D>>): nat {
    if script == [] then 0
    else (if script[0].TooManyRequests? then Backoff(script[0].retryAfter) else 0) + TotalBackoff(script[1..])
  }

  /** There is no attempt cap: the first answer that is not a 429 decides the outcome, after
      one request per preceding 429 and a total wait of their backoffs. */
  lemma {:induction false} FirstSettlingAnswerDecides<D>(req: HttpRequest, script: seq<Response<D>>, i: nat)
    requires i < |script| && !script[i].TooManyRequests?
    requires forall j :: 0 <= j < i ==> script[j].TooManyRequests?
    ensures MakeRequest(req, script).outcome == Some(Settle(script[i]))
    ensures |MakeRequest(req, script).sent| == i + 1
    ensures Sum(MakeRequest(req, script).waits) == TotalBackoff(script[..i])
    decreases i
  {
    if i > 0 {
      FirstSettlingAnswerDecides(Retry(req), script[1..], i - 1);
      assert script[..i][1..] == script[1..][..i - 1];
    }
  }

  /** A 429 with `retry-after: 1` followed by success waits two seconds and then returns the
      data unchanged. */
  lemma OneRateLimitThenSuccess<D>(req: HttpRequest, d: D)
    ensures MakeRequest(req, [TooManyRequests(1), Ok(d)]) == Exchange(Some(Success(d)), [req, Retry(req)], [2000])
  {
    assert [TooManyRequests(1), Ok(d)][1..] == [Ok(d)];
  }

  /** A caught error rethrown as `new Error(prefix + error.message)`. */
  function Rethrow<D>(x: Exchange<D>, prefix: string): (y: Exchange<D>)
    ensures y.sent == x.sent && y.waits == x.waits
    ensures x.outcome.Some? <==> y.outcome.Some?
    ensures x.outcome.Some? && x.outcome.value.Success? ==> y.outcome == x.outcome
    ensures x.outcome.Some? && x.outcome.value.Failure? ==>
      y.outcome.value.Failure? && y.outcome.value.error == prefix + x.outcome.value.error
  {
    match x.outcome
    case Some(Failure(e)) => x.(outcome := Some(Failure(prefix + e)))
    case _ => x
  }

  /** `${endpoint}/${customerData.id}`: an absent id is interpolated as "undefined". */
  function IdUrl(endpoint: string, p: Payload): string {
    endpoint + "/" + (if p.id.Some? then p.id.value else "undefined")
  }

  function CreateRequest(endpoint: string, p: Payload): HttpRequest {
    HttpRequest(Post, endpoint, Some(p), map[])
  }

  function ReadRequest(endpoint: string, name: string): HttpRequest {
    HttpRequest(Get, endpoint, None, map["name" := name])
  }

  function UpdateRequest(endpoint: string, p: Payload): HttpRequest {
    HttpRequest(Put, IdUrl(endpoint, p), Some(p), map[])
  }

  function DeleteRequest(endpoint: string, p: Payload): HttpRequest {
    HttpRequest(Delete, IdUrl(endpoint, p), Some(p), map[])
  }

  /** Every request of the exchange goes to `url` with `verb` and `body`. */
  ghost predicate AllTo(sent: seq<HttpRequest>, verb: Verb, url: string, body: Option<Payload>) {
    forall j :: 0 <= j < |sent| ==> sent[j].verb == verb && sent[j].url == url && sent[j].body == body
  }

  /** What a wrapper returns or throws for a settling answer: `response.data` unchanged, or
      `new Error(prefix + "Request failed: " + message)`. */
  function Answered<D>(resp: Response<D>, prefix: string): Result<D, string>
    requires !resp.TooManyRequests?
  {
    match resp
    case Ok(d) => Success(d)
    case Failed(m) => Failure(prefix + RequestErrorPrefix + m)
  }

  /** The wrapper's outcome is decided by the first answer that is not a 429: one request
      per answer consumed, one backoff wait per preceding 429, and a call still waiting
      when the script runs out has consumed all of it. */
  ghost predicate DecidedBy<D>(x: Exchange<D>, script: seq<Response<D>>, prefix: string) {
    && |x.waits| <= |script|
    && |x.sent| == |x.waits| + (if x.outcome.Some? then 1 else 0)
    && (x.outcome.None? ==> |x.waits| == |script|)
    && (forall j :: 0 <= j < |x.waits| ==>
          script[j].TooManyRequests? && x.waits[j] == Backoff(script[j].retryAfter))
    && (x.outcome.Some? ==>
          |x.waits| < |script| && !script[|x.waits|].TooManyRequests?
          && x.outcome.value == Answered(script[|x.waits|], prefix))
  }

  /** A request rethrown by a wrapper is decided by its first settling answer. */
  lemma WrapperDecided<D>(req: HttpRequest, script: seq<Response<D>>, prefix: string)
    ensures DecidedBy(Rethrow(MakeRequest(req, script), prefix), script, prefix)
  {
    var x := MakeRequest(req, script);
    if x.outcome.Some? && x.outcome.value.Failure? {
      var m := script[|x.waits|].message;
      assert prefix + (RequestErrorPrefix + m) == prefix + RequestErrorPrefix + m;
    }
  }

  /** `createCustomer`: POST of the payload to the endpoint. */
  function CreateCustomer(endpoint: string, p: Payload, script: seq<Response<DestinationRecord>>): (x: Exchange<DestinationRecord>)
    ensures AllTo(x.sent, Post, endpoint, Some(p))
    ensures forall j :: 0 <= j < |x.sent| ==> x.sent[j].params == map[]
    ensures |script| > 0 ==> |x.sent| > 0 && x.sent[0] == CreateRequest(endpoint, p)
    ensures x.outcome.None? <==> AllRateLimited(script)
    ensures DecidedBy(x, script, CreateErrorPrefix)
  {
    WrapperDecided(CreateRequest(endpoint, p), script, CreateErrorPrefix);
    Rethrow(MakeRequest(CreateRequest(endpoint, p), script), CreateErrorPrefix)
  }

  /** `readCustomer`: GET with the `name` filter; a retry after a 429 drops the filter. */
  function ReadCustomer(endpoint: string, name: string, script: seq<Response<seq<DestinationRecord>>>): (x: Exchange<seq<DestinationRecord>>)
    ensures AllTo(x.sent, Get, endpoint, None)
    ensures |x.sent| > 0 ==> x.sent[0].params == map["name" := name]
    ensures forall j :: 0 < j < |x.sent| ==> x.sent[j].params == map[]
    ensures |script| > 0 ==> |x.sent| > 0 && x.sent[0] == ReadRequest(endpoint, name)
    ensures x.outcome.None? <==> AllRateLimited(script)
    ensures DecidedBy(x, script, ReadErrorPrefix)
  {
    WrapperDecided(ReadRequest(endpoint, name), script, ReadErrorPrefix);
    Rethrow(MakeRequest(ReadRequest(endpoint, name), script), ReadErrorPrefix)
  }

  /** `updateCustomer`: PUT of the payload to `endpoint/id`. */
  function UpdateCustomer(endpoint: string, p: Payload, script: seq<Response<DestinationRecord>>): (x: Exchange<DestinationRecord>)
    ensures AllTo(x.sent, Put, IdUrl(endpoint, p), Some(p))
    ensures forall j :: 0 <= j < |x.sent| ==> x.sent[j].params == map[]
    ensures |script| > 0 ==> |x.sent| > 0 && x.sent[0] == UpdateRequest(endpoint, p)
    ensures x.outcome.None? <==> AllRateLimited(script)
    ensures DecidedBy(x, script, UpdateErrorPrefix)
  {
    WrapperDecided(UpdateRequest(endpoint, p), script, UpdateErrorPrefix);
    Rethrow(MakeRequest(UpdateRequest(endpoint, p), script), UpdateErrorPrefix)
  }

  /** `deleteCustomer` (never called by the engine): DELETE to `endpoint/id`, with the payload as body. */
  function DeleteCustomer(endpoint: string, p: Payload, script: seq<Response<DestinationRecord>>): (x: Exchange<DestinationRecord>)
    ensures AllTo(x.sent, Delete, IdUrl(endpoint, p), Some(p))
    ensures forall j :: 0 <= j < |x.sent| ==> x.sent[j].params == map[]
    ensures |script| > 0 ==> |x.sent| > 0 && x.sent[0] == DeleteRequest(endpoint, p)
    ensures x.outcome.None? <==> AllRateLimited(script)
    ensures DecidedBy(x, script, DeleteErrorPrefix)
  {
    WrapperDecided(DeleteRequest(endpoint, p), script, DeleteErrorPrefix);
    Rethrow(MakeRequest(DeleteRequest(endpoint, p), script), DeleteErrorPrefix)
  }

  /** A `readCustomer` answered first by a 429 sends its retry without the `name` filter. */
  lemma RetriedReadLosesNameFilter(endpoint: string, name: string, r: nat, rest: seq<Response<seq<DestinationRecord>>>)
    requires |rest| > 0
    ensures var x := ReadCustomer(endpoint, name, [TooManyRequests(r)] + rest);
      |x.sent| >= 2 && x.sent[0].params == map["name" := name] && x.sent[1].params == map[]
      && x.sent[1].params != x.sent[0].params
  {
    var script := [TooManyRequests(r)] + rest;
    assert script[1..] == rest;
    var x := ReadCustomer(endpoint, name, script);
    assert "name" in x.sent[0].params;
  }
}

=== FILE: seqs.dfy ===
/** Failure-carrying datatypes used for the program's `null` values and thrown errors. */
module Wrappers {

  /** A value that may be absent (JavaScript `null` / `undefined`, or NaN for a parsed date). */
  datatype Option<+T> = None | Some(value: T)

  /** The outcome of a call that either returns a value or throws an error with a message. */
  datatype Result<+T, +E> = Success(value: T) | Failure(error: E)
}

/** Sequence helpers shared by the pagination loop and the chunking of records. */
module Seqs {

  function Min(a: int, b: int): int {
    if a <= b then a else b
  }

  /** Concatenation of a sequence of sequences, front to back (`[].concat(...ss)`). */
  function Flatten<T>(ss: seq<seq<T>>): seq<T>
    decreases |ss|
  {
    if |ss| == 0 then [] else ss[0] + Flatten(ss[1..])
  }

  lemma {:induction false} FlattenConcat<T>(a: seq<seq<T>>, b: seq<seq<T>>)
    ensures Flatten(a + b) == Flatten(a) + Flatten(b)
    decreases |a|
  {
    if |a| == 0 {
      assert a + b == b;
    } else {
      assert (a + b)[1..] == a[1..] + b;
      FlattenConcat(a[1..], b);
    }
  }

  /** Appending one more sequence at the back extends the flattening by exactly that sequence. */
  lemma FlattenSnoc<T>(a: seq<seq<T>>, s: seq<T>)
    ensures Flatten(a + [s]) == Flatten(a) + s
  {
    FlattenConcat(a, [s]);
    assert Flatten([s]) == s + Flatten([s][1..]);
  }
}

=== FILE: source_api.dfy ===
/** The paginated extraction of api.js: `fetchAllAPI1Customers`. */
module SourceApi {
  import opened Wrappers
  import opened Seqs
  import opened Customers

  /** Records per page, and the step of the offset. */
  const PageSize: nat := 10

  /** The prefix `fetchAllAPI1Customers` puts on any failure it rethrows. */
  const FetchErrorPrefix := "Failed to fetch customers from API1: "

  /** The query parameters of one page request. */
  datatype PageRequest = PageRequest(offset: int, updatedAt: Option<string>)

  /** What one `axios.get` gives back: a page of records, or a thrown error. */
  datatype PageResponse = Page(records: seq<SourceRecord>) | PageFailure(message: string)

  /** The source system, answering each page request. */
  type Source = PageRequest -> PageResponse

  /** A response that ends the loop: a thrown error, or a page shorter than `PageSize`. */
  predicate Final(p: PageResponse) {
    p.PageFailure? || |p.records| < PageSize
  }

  function RecordsOf(p: PageResponse): seq<SourceRecord> {
    if p.Page? then p.records else []
  }

  /** The pages answered to `requests`, in request order. */
  function PagesOf(source: Source, requests: seq<PageRequest>): (pages: seq<seq<SourceRecord>>)
    ensures |pages| == |requests|
    ensures forall i :: 0 <= i < |requests| ==> pages[i] == RecordsOf(source(requests[i]))
  {
    seq(|requests|, i requires 0 <= i < |requests| => RecordsOf(source(requests[i])))
  }

  /** Asking one more page appends its records to the pages. */
  lemma PagesSnoc(source: Source, requests: seq<PageRequest>, request: PageRequest)
    ensures PagesOf(source, requests + [request]) == PagesOf(source, requests) + [RecordsOf(source(request))]
  {
  }

  /** Requests go out at offsets 0, 10, 20, ..., all with the same `updatedAt`, and every
      request but the last was answered with a full page. */
  ghost predicate Issued(source: Source, lastSyncDate: Option<string>, requests: seq<PageRequest>) {
    && (forall i :: 0 <= i < |requests| ==> requests[i] == PageRequest(PageSize * i, lastSyncDate))
    && (forall i :: 0 <= i < |requests| - 1 ==> !Final(source(requests[i])))
  }

  /** After a full page the loop asks for the next offset, and the requests stay in shape. */
  lemma IssuedSnoc(source: Source, lastSyncDate: Option<string>, requests: seq<PageRequest>)
    requires Issued(source, lastSyncDate, requests)
    requires |requests| > 0 ==> !Final(source(requests[|requests| - 1]))
    ensures Issued(source, lastSyncDate, requests + [PageRequest(PageSize * |requests|, lastSyncDate)])
  {
  }

  /** What one run of the pagination loop does against `source`: the requests are issued as
      above, the last answer is final, and the result is the concatenation of all pages, or
      the last answer's error with the extraction prefix (no partial result). */
  ghost predicate FetchSpec(source: Source, lastSyncDate: Option<string>, requests: seq<PageRequest>,
                            r: Result<seq<SourceRecord>, string>)
  {
    && |requests| >= 1
    && Issued(source, lastSyncDate, requests)
    && Final(source(requests[|requests| - 1]))
    && match source(requests[|requests| - 1])
       case PageFailure(m) => r == Failure(FetchErrorPrefix + m)
       case Page(_) => r == Success(Flatten(PagesOf(source, requests)))
  }

  /** `fetchAllAPI1Customers(lastSyncDate)`. The loop only ends at a final answer, so the
      model covers sources that give one at some offset; `bound` names such an offset. */
  method FetchAllCustomers(source: Source, lastSyncDate: Option<string>, ghost bound: nat)
    returns (r: Result<seq<SourceRecord>, string>, requests: seq<PageRequest>)
    requires Final(source(PageRequest(PageSize * bound, lastSyncDate)))
    ensures FetchSpec(source, lastSyncDate, requests, r)
  {
    var customers: seq<SourceRecord> := [];
    var offset := 0;
    var hasNextPage := true;
    requests := [];
    while hasNextPage
      invariant Issued(source, lastSyncDate, requests)
      invariant hasNextPage ==> offset == PageSize * |requests| && |requests| <= bound
      invariant hasNextPage && |requests| > 0 ==> !Final(source(requests[|requests| - 1]))
      invariant !hasNextPage ==>
        |requests| >= 1 && source(requests[|requests| - 1]).Page? && Final(source(requests[|requests| - 1]))
      invariant customers == Flatten(PagesOf(source, requests))
      decreases (if hasNextPage then 1 else 0) + bound - |requests|
    {
      var request := PageRequest(offset, lastSyncDate);
      var response := source(request);
      IssuedSnoc(source, lastSyncDate, requests);
      PagesSnoc(source, requests, request);
      FlattenSnoc(PagesOf(source, requests), RecordsOf(response));
      requests := requests + [request];
      match response {
        case PageFailure(m) =>
          r := Failure(FetchErrorPrefix + m);
          return;
        case Page(page) =>
          customers := customers + page;
          if |page| < PageSize {
            hasNextPage := false;
          } else {
            offset := offset + PageSize;
          }
      }
    }
    r := Success(customers);
  }

  /** The source as a fixed list of records served in slices of `PageSize` by offset. */
  function ServeList(data: seq<SourceRecord>): Source {
    (req: PageRequest) => Page(data[Clip(req.offset, |data|)..Clip(req.offset + PageSize, |data|)])
  }

  function Clip(x: int, n: nat): nat {
    if x < 0 then 0 else if x > n then n else x
  }

  /** The page a list serves at `offset`. */
  lemma ServedSlice(data: seq<SourceRecord>, req: PageRequest)
    ensures RecordsOf(ServeList(data)(req)) == data[Clip(req.offset, |data|)..Clip(req.offset + PageSize, |data|)]
  {
  }

  lemma PrefixThenSlice<T>(xs: seq<T>, lo: nat, hi: nat)
    requires lo <= hi <= |xs|
    ensures xs[..lo] + xs[lo..hi] == xs[..hi]
  {
  }

  /** The first `k` slices of a list served by `ServeList` concatenate to its prefix. */
  lemma {:induction false} SlicesConcatenate(data: seq<SourceRecord>, lastSyncDate: Option<string>, requests: seq<PageRequest>)
    requires forall i :: 0 <= i < |requests| ==> requests[i] == PageRequest(PageSize * i, lastSyncDate)
    ensures Flatten(PagesOf(ServeList(data), requests)) == data[..Clip(PageSize * |requests|, |data|)]
    decreases |requests|
  {
    var k := |requests|;
    if k > 0 {
      var source := ServeList(data);
      var front, last := requests[..k - 1], requests[k - 1];
      assert forall i :: 0 <= i < |front| ==> front[i] == requests[i];
      SlicesConcatenate(data, lastSyncDate, front);
      var lo := Clip(PageSize * (k - 1), |data|);
      var hi := Clip(PageSize * k, |data|);
      assert last.offset == PageSize * (k - 1);
      ServedSlice(data, last);
      assert requests == front + [last];
      PagesSnoc(source, front, last);
      FlattenSnoc(PagesOf(source, front), data[lo..hi]);
      PrefixThenSlice(data, lo, hi);
    }
  }

  /** Against a list served in slices, the loop returns exactly the list and issues
      `|data| / 10 + 1` requests: the last is the first short (possibly empty) page. */
  lemma ListSourceFetchesEverything(data: seq<SourceRecord>, lastSyncDate: Option<string>,
                                    requests: seq<PageRequest>, r: Result<seq<SourceRecord>, string>)
    requires FetchSpec(ServeList(data), lastSyncDate, requests, r)
    ensures |requests| == |data| / PageSize + 1
    ensures r == Success(data)
  {
    var m := |requests|;
    var n := |data|;
    if m >= 2 {
      assert !Final(ServeList(data)(requests[m - 2]));
      assert PageSize * (m - 1) <= n;
    }
    assert Final(ServeList(data)(requests[m - 1]));
    assert n < PageSize * m;
    SlicesConcatenate(data, lastSyncDate, requests);
    assert data[..Clip(PageSize * m, n)] == data;
  }

  /** 95 records take ten requests: nine full pages and one page of five. */
  lemma NinetyFiveRecordsTakeTenRequests(data: seq<SourceRecord>, lastSyncDate: Option<string>,
                                         requests: seq<PageRequest>, r: Result<seq<SourceRecord>, string>)
    requires |data| == 95
    requires FetchSpec(ServeList(data), lastSyncDate, requests, r)
    ensures |requests| == 10 && r == Success(data)
  {
    ListSourceFetchesEverything(data, lastSyncDate, requests, r);
  }
}

=== FILE: sync.dfy ===
/** The reconciliation engine of syncCustomers.js: `chunkArray`, `syncCustomerData`,
    `processCustomerChunk` and the run pipeline `syncCustomers`, over the module-level
    counters. The concurrent `Promise.all` fan-out is modelled as a sequential fold. */
module Sync {
  import opened Wrappers
  import opened Seqs
  import opened Customers
  import opened Watermark
  import opened SourceApi
  import opened Destination

  /** `numItemsUpdated`, `numItemsCreated`, `numChunks`, `numErrors`: module state that
      outlives a single call of `syncCustomers`. */
  datatype Counters = Counters(updated: nat, created: nat, chunks: nat, errors: nat)

  /** No counts at all; also the counters when the module is loaded. */
  const Zero := Counters(0, 0, 0, 0)

  /** The number of records whose reconciliation has settled, one way or the other. */
  function Handled(c: Counters): nat {
    c.updated + c.created + c.errors
  }

  /** `c` moved on by the per-record increments in `d`; `numChunks` is not a per-record counter. */
  function Add(c: Counters, d: Counters): Counters {
    Counters(c.updated + d.updated, c.created + d.created, c.chunks, c.errors + d.errors)
  }

  /** No counter ever goes down. */
  ghost predicate Grown(c: Counters, d: Counters) {
    c.updated <= d.updated && c.created <= d.created && c.errors <= d.errors
  }

  // ---------------------------------------------------------------- chunkArray

  /** The message of the TypeError `chunks[0].length` throws when there is no chunk. */
  const EmptyChunkError := "Cannot read properties of undefined (reading 'length')"

  /** The chunks the loop of `chunkArray` pushes from index `i` on:
      `array.slice(i, i + chunkSize)`, the slice clipped at the end of the array. */
  function ChunkFrom<T>(xs: seq<T>, size: nat, i: nat): (chunks: seq<seq<T>>)
    requires size > 0
    ensures Flatten(chunks) == xs[Min(i, |xs|)..]
    ensures forall k :: 0 <= k < |chunks| ==> 1 <= |chunks[k]| <= size
    ensures forall k :: 0 <= k < |chunks| - 1 ==> |chunks[k]| == size
    ensures |chunks| > 0 ==> |chunks[0]| == Min(size, |xs| - i)
    ensures i >= |xs| ==> chunks == []
    ensures i < |xs| ==> (|chunks| - 1) * size < |xs| - i <= |chunks| * size
    decreases |xs| - i
  {
    if i < |xs| then
      var rest := ChunkFrom(xs, size, i + size);
      var chunks := [xs[i..Min(i + size, |xs|)]] + rest;
      MulSucc(|rest|, size);
      chunks
    else []
  }

  lemma MulSucc(c: nat, size: nat)
    ensures (c + 1) * size == c * size + size
    ensures c > 0 ==> (c - 1) * size == c * size - size
  {
  }

  /** `chunkArray(array, chunkSize)`: the chunks, and `numChunks` set to the length of the
      FIRST chunk; an empty array makes `chunks[0].length` throw before `numChunks` is set. */
  function ChunkArray<T>(xs: seq<T>, size: nat, c: Counters): (r: Result<(seq<seq<T>>, Counters), string>)
    requires size > 0
    ensures r.Failure? <==> xs == []
    ensures r.Failure? ==> r.error == EmptyChunkError
    ensures r.Success? ==> Flatten(r.value.0) == xs
    ensures r.Success? ==> (|r.value.0| - 1) * size < |xs| <= |r.value.0| * size
    ensures r.Success? ==> forall k :: 0 <= k < |r.value.0| ==> 1 <= |r.value.0[k]| <= size
    ensures r.Success? ==> forall k :: 0 <= k < |r.value.0| - 1 ==> |r.value.0[k]| == size
    ensures r.Success? ==> r.value.1 == c.(chunks := Min(size, |xs|))
  {
    var chunks := ChunkFrom(xs, size, 0);
    if |chunks| == 0 then Failure(EmptyChunkError)
    else Success((chunks, c.(chunks := |chunks[0]|)))
  }

  // ---------------------------------------------------------- syncCustomerData

  /** The destination's answers for one record: to its lookup, then to its write. */
  datatype RecordScript = RecordScript(
    lookup: seq<Response<seq<DestinationRecord>>>,
    write: seq<Response<DestinationRecord>>)

  /** The destination's behaviour for every record the engine may send. */
  type Answers = SourceRecord -> RecordScript

  /** Which counter reconciling one record moves: `numItemsUpdated`, `numItemsCreated`,
      `numErrors`, or none while its promise has not settled. */
  datatype Tally = Updated | Created | Errored | Unsettled

  /** What reconciling one record did: its tally and the requests it sent. */
  datatype RecordRun = RecordRun(tally: Tally, sent: seq<HttpRequest>)

  /** The one increment a tally stands for. */
  function Delta(t: Tally): Counters {
    match t
    case Updated => Counters(1, 0, 0, 0)
    case Created => Counters(0, 1, 0, 0)
    case Errored => Counters(0, 0, 0, 1)
    case Unsettled => Zero
  }

  /** The increment at the end of `syncCustomerData`'s `try`, or in its `catch`. */
  function Bump(c: Counters, t: Tally): (d: Counters)
    ensures t != Unsettled ==> Handled(d) == Handled(c) + 1
    ensures t == Unsettled ==> d == c
    ensures d.chunks == c.chunks && Grown(c, d)
  {
    Add(c, Delta(t))
  }

  /** A record's reconciliation settles unless its lookup, or the write that follows a
      successful lookup, is still rate limited when its script runs out. */
  ghost predicate RecordSettles(endpoint: string, rec: SourceRecord, script: RecordScript) {
    !AllRateLimited(script.lookup)
    && (ReadCustomer(endpoint, rec.name, script.lookup).outcome.value.Success? ==> !AllRateLimited(script.write))
  }

  /** No request in `sent` uses `verb`. */
  ghost predicate NoneWith(sent: seq<HttpRequest>, verb: Verb) {
    forall k :: 0 <= k < |sent| ==> sent[k].verb != verb
  }

  /** The tally after the write: `success` on success, `Errored` when it threw. */
  function AfterWrite(lookupSent: seq<HttpRequest>, w: Exchange<DestinationRecord>, success: Tally): RecordRun {
    match w.outcome
    case None => RecordRun(Unsettled, lookupSent + w.sent)
    case Some(Failure(_)) => RecordRun(Errored, lookupSent + w.sent)
    case Some(Success(_)) => RecordRun(success, lookupSent + w.sent)
  }

  /** `syncCustomerData(customerAPI1)`: look the name up, then update the first match or
      create; any failure is caught, counted as an error and not rethrown. */
  function SyncCustomerData(endpoint: string, rec: SourceRecord, script: RecordScript): (run: RecordRun)
    ensures run.tally != Unsettled <==> RecordSettles(endpoint, rec, script)
    ensures |script.lookup| > 0 ==> |run.sent| > 0 && run.sent[0] == ReadRequest(endpoint, rec.name)
    ensures |script.lookup| > 0 ==> forall k :: 0 <= k < |run.sent| && run.sent[k].verb == Get ==>
      run.sent[k] == ReadRequest(endpoint, rec.name) || run.sent[k] == Retry(ReadRequest(endpoint, rec.name))
  {
    var lookup := ReadCustomer(endpoint, rec.name, script.lookup);
    match lookup.outcome
    case None => RecordRun(Unsettled, lookup.sent)
    case Some(Failure(_)) => RecordRun(Errored, lookup.sent)
    case Some(Success(existing)) =>
      var payload := ToPayload(rec);
      if |existing| > 0 then
        AfterWrite(lookup.sent, UpdateCustomer(endpoint, WithId(payload, existing[0].id), script.write), Updated)
      else
        AfterWrite(lookup.sent, CreateCustomer(endpoint, payload, script.write), Created)
  }

  /** A lookup with matches leads to an update of the first match's id, never a create:
      `numItemsUpdated` grows when the update succeeds, `numErrors` when it fails. */
  lemma FoundCustomerIsUpdated(endpoint: string, rec: SourceRecord, script: RecordScript, existing: seq<DestinationRecord>)
    requires ReadCustomer(endpoint, rec.name, script.lookup).outcome == Some(Success(existing))
    requires |existing| > 0
    ensures var run := SyncCustomerData(endpoint, rec, script);
      var update := UpdateCustomer(endpoint, WithId(ToPayload(rec), existing[0].id), script.write);
      && NoneWith(run.sent, Post)
      && run.sent == ReadCustomer(endpoint, rec.name, script.lookup).sent + update.sent
      && AllTo(update.sent, Put, endpoint + "/" + existing[0].id, Some(WithId(ToPayload(rec), existing[0].id)))
      && run.tally in {Updated, Errored, Unsettled}
      && (run.tally == Updated <==> update.outcome.Some? && update.outcome.value.Success?)
      && (run.tally == Errored <==> update.outcome.Some? && update.outcome.value.Failure?)
  {
  }

  /** A lookup with no match leads to a create of the bare payload, never an update. */
  lemma MissingCustomerIsCreated(endpoint: string, rec: SourceRecord, script: RecordScript)
    requires ReadCustomer(endpoint, rec.name, script.lookup).outcome == Some(Success([]))
    ensures var run := SyncCustomerData(endpoint, rec, script);
      var create := CreateCustomer(endpoint, ToPayload(rec), script.write);
      && NoneWith(run.sent, Put)
      && run.sent == ReadCustomer(endpoint, rec.name, script.lookup).sent + create.sent
      && AllTo(create.sent, Post, endpoint, Some(ToPayload(rec)))
      && run.tally in {Created, Errored, Unsettled}
      && (run.tally == Created <==> create.outcome.Some? && create.outcome.value.Success?)
      && (run.tally == Errored <==> create.outcome.Some? && create.outcome.value.Failure?)
  {
  }

  /** Whatever the answers, a record causes creates or updates but never both; a create
      sends exactly the record's payload to the endpoint, and an update sends that payload
      with some `id` attached. */
  lemma RecordWritesOnePayload(endpoint: string, rec: SourceRecord, script: RecordScript)
    ensures var run := SyncCustomerData(endpoint, rec, script);
      && (NoneWith(run.sent, Post) || NoneWith(run.sent, Put))
      && (forall k :: 0 <= k < |run.sent| && run.sent[k].verb == Post ==>
            run.sent[k].body == Some(ToPayload(rec)) && run.sent[k].url == endpoint)
      && (forall k :: 0 <= k < |run.sent| && run.sent[k].verb == Put ==>
            run.sent[k].body.Some? && run.sent[k].body.value.id.Some?
            && run.sent[k].body.value == WithId(ToPayload(rec), run.sent[k].body.value.id.value))
  {
    var lookup := ReadCustomer(endpoint, rec.name, script.lookup);
    if lookup.outcome.Some? && lookup.outcome.value.Success? {
      var existing := lookup.outcome.value.value;
      if |existing| > 0 {
        FoundCustomerIsUpdated(endpoint, rec, script, existing);
      } else {
        MissingCustomerIsCreated(endpoint, rec, script);
      }
    }
  }

  /** A failed lookup sends no write and only counts an error. */
  lemma FailedLookupOnlyCountsError(endpoint: string, rec: SourceRecord, script: RecordScript)
    requires ReadCustomer(endpoint, rec.name, script.lookup).outcome.Some?
    requires ReadCustomer(endpoint, rec.name, script.lookup).outcome.value.Failure?
    ensures var run := SyncCustomerData(endpoint, rec, script);
      run.tally == Errored && AllTo(run.sent, Get, endpoint, None)
  {
  }

  // ------------------------------------------------------ processCustomerChunk

  /** The fold state over records: the counters, and whether every record so far settled. */
  datatype Progress = Progress(counters: Counters, settled: bool)

  /** The tallies of `chunk.map(syncCustomerData)`: each record's outcome depends only on
      the destination's answers for it, not on the other records. */
  function Tallies(endpoint: string, xs: seq<SourceRecord>, answers: Answers): (ts: seq<Tally>)
    ensures |ts| == |xs|
    ensures forall i :: 0 <= i < |xs| ==> ts[i] == SyncCustomerData(endpoint, xs[i], answers(xs[i])).tally
  {
    seq(|xs|, i requires 0 <= i < |xs| => SyncCustomerData(endpoint, xs[i], answers(xs[i])).tally)
  }

  /** The counter increments of the tallies, applied in order. */
  function Apply(ts: seq<Tally>, p: Progress): (q: Progress)
    ensures q.settled <==> p.settled && forall i :: 0 <= i < |ts| ==> ts[i] != Unsettled
    ensures Handled(q.counters) <= Handled(p.counters) + |ts|
    ensures q.settled ==> Handled(q.counters) == Handled(p.counters) + |ts|
    ensures q.counters.chunks == p.counters.chunks && Grown(p.counters, q.counters)
    decreases |ts|
  {
    if ts == [] then p
    else
      assert forall i :: 0 <= i < |ts| - 1 ==> ts[1..][i] == ts[i + 1];
      Apply(ts[1..], Progress(Bump(p.counters, ts[0]), p.settled && ts[0] != Unsettled))
  }

  /** The increments a sequence of tallies adds up to: one per settled record, by kind. */
  function Tallied(ts: seq<Tally>): Counters {
    Counters(multiset(ts)[Updated], multiset(ts)[Created], 0, multiset(ts)[Errored])
  }

  /** Applying tallies adds their counts: the result depends on the multiset of tallies
      only, so not on the order in which concurrent records finish. */
  lemma {:induction false} ApplyAddsCounts(ts: seq<Tally>, p: Progress)
    ensures Apply(ts, p) == Progress(Add(p.counters, Tallied(ts)), p.settled && Unsettled !in multiset(ts))
    decreases |ts|
  {
    if ts == [] {
      assert multiset(ts) == multiset{};
    } else {
      assert ts == [ts[0]] + ts[1..];
      assert multiset(ts) == multiset{ts[0]} + multiset(ts[1..]);
      ApplyAddsCounts(ts[1..], Progress(Bump(p.counters, ts[0]), p.settled && ts[0] != Unsettled));
    }
  }

  /** `processCustomerChunk(chunk)`: every record of the chunk reconciled. */
  function ProcessRecords(endpoint: string, xs: seq<SourceRecord>, answers: Answers, p: Progress): (q: Progress)
    ensures q.settled <==> p.settled && AllSettle(endpoint, xs, answers)
    ensures q.settled ==> Handled(q.counters) == Handled(p.counters) + |xs|
    ensures q.counters.chunks == p.counters.chunks && Grown(p.counters, q.counters)
  {
    Apply(Tallies(endpoint, xs, answers), p)
  }

  /** All records of `xs` settle. */
  ghost predicate AllSettle(endpoint: string, xs: seq<SourceRecord>, answers: Answers) {
    forall i :: 0 <= i < |xs| ==> RecordSettles(endpoint, xs[i], answers(xs[i]))
  }

  lemma {:induction false} ApplyAppend(ts: seq<Tally>, us: seq<Tally>, p: Progress)
    ensures Apply(ts + us, p) == Apply(us, Apply(ts, p))
    decreases |ts|
  {
    if ts == [] {
      assert ts + us == us;
    } else {
      assert (ts + us)[0] == ts[0];
      assert (ts + us)[1..] == ts[1..] + us;
      ApplyAppend(ts[1..], us, Progress(Bump(p.counters, ts[0]), p.settled && ts[0] != Unsettled));
    }
  }

  /** The tallies of a concatenation are the concatenated tallies. */
  lemma TalliesConcat(endpoint: string, xs: seq<SourceRecord>, ys: seq<SourceRecord>, answers: Answers)
    ensures Tallies(endpoint, xs + ys, answers) == Tallies(endpoint, xs, answers) + Tallies(endpoint, ys, answers)
  {
  }

  lemma ProcessRecordsAppend(endpoint: string, xs: seq<SourceRecord>, ys: seq<SourceRecord>, answers: Answers, p: Progress)
    ensures ProcessRecords(endpoint, xs + ys, answers, p)
         == ProcessRecords(endpoint, ys, answers, ProcessRecords(endpoint, xs, answers, p))
  {
    TalliesConcat(endpoint, xs, ys, answers);
    ApplyAppend(Tallies(endpoint, xs, answers), Tallies(endpoint, ys, answers), p);
  }

  /** `Promise.all(customerChunks.map(processCustomerChunk))`, run as one chunk after another:
      the same as processing the flattened records. */
  function ProcessChunks(endpoint: string, chunks: seq<seq<SourceRecord>>, answers: Answers, p: Progress): (q: Progress)
    ensures q == ProcessRecords(endpoint, Flatten(chunks), answers, p)
    decreases |chunks|
  {
    if chunks == [] then p
    else
      ProcessRecordsAppend(endpoint, chunks[0], Flatten(chunks[1..]), answers, p);
      ProcessChunks(endpoint, chunks[1..], answers, ProcessRecords(endpoint, chunks[0], answers, p))
  }

  /** Running two parts of a batch in either order gives the same counters and settlement. */
  lemma CountersIgnoreOrder(endpoint: string, xs: seq<SourceRecord>, ys: seq<SourceRecord>, answers: Answers, p: Progress)
    ensures ProcessRecords(endpoint, xs + ys, answers, p) == ProcessRecords(endpoint, ys + xs, answers, p)
  {
    var txy := Tallies(endpoint, xs + ys, answers);
    var tyx := Tallies(endpoint, ys + xs, answers);
    TalliesConcat(endpoint, xs, ys, answers);
    TalliesConcat(endpoint, ys, xs, answers);
    assert multiset(txy) == multiset(tyx);
    ApplyAddsCounts(txy, p);
    ApplyAddsCounts(tyx, p);
  }

  // ------------------------------------------------------------- syncCustomers

  /** The configuration: the destination endpoint and `MAX_CONCURRENT_REQUESTS`. */
  datatype Config = Config(endpoint: string, chunkSize: nat)

  /** How one call of `syncCustomers` ends. `Reported`: the watermark was saved and the
      statistics logged. `Aborted`: an error reached the outer catch and was logged; nothing
      more happens. `Stalled`: some destination call was still rate limited when its script
      ran out, so `Promise.all` has not resolved and nothing after it has run. */
  datatype RunOutcome =
    | Reported(store: StoreFile, counters: Counters)
    | Aborted(store: StoreFile, counters: Counters, message: string)
    | Stalled(store: StoreFile, counters: Counters)

  /** `syncCustomers` from the moment the extraction returned (or threw) on: chunk, process
      every chunk, compute the watermark, save it, report. */
  function CompleteRun(cfg: Config, store: StoreFile, lastSyncDate: Option<string>,
                       fetched: Result<seq<SourceRecord>, string>, answers: Answers,
                       parse: DateParser, fault: Option<WriteFault>, c: Counters): (run: RunOutcome)
    requires cfg.chunkSize > 0
    ensures fetched.Failure? ==> run == Aborted(store, c, fetched.error)
    ensures fetched == Success([]) ==> run == Aborted(store, c, EmptyChunkError)
    ensures run.Reported? <==>
      fetched.Success? && fetched.value != [] && AllSettle(cfg.endpoint, fetched.value, answers) && fault.None?
    ensures run.Reported? ==>
      && run.store == Saved(CalculateMaxUpdatedAt(fetched.value, lastSyncDate, parse))
      && Handled(run.counters) == Handled(c) + |fetched.value|
      && run.counters.chunks == Min(cfg.chunkSize, |fetched.value|)
    ensures fetched.Success? && fetched.value != [] && AllSettle(cfg.endpoint, fetched.value, answers) && fault.Some? ==>
      run.Aborted? && run.message == fault.value.message
    ensures !run.Reported? ==>
      run.store == store || (run.Aborted? && fault == Some(AfterTruncate(run.message)) && run.store == Corrupt)
    ensures Grown(c, run.counters)
  {
    match fetched
    case Failure(e) => Aborted(store, c, e)
    case Success(all) =>
      match ChunkArray(all, cfg.chunkSize, c)
      case Failure(e) => Aborted(store, c, e)
      case Success((chunks, c1)) =>
        var done := ProcessChunks(cfg.endpoint, chunks, answers, Progress(c1, true));
        if !done.settled then Stalled(store, done.counters)
        else
          var maxUpdatedAt := CalculateMaxUpdatedAt(all, lastSyncDate, parse);
          var saving := SaveLastSyncDate(store, maxUpdatedAt, fault);
          if saving.error.Some? then Aborted(saving.file, done.counters, saving.error.value)
          else Reported(saving.file, done.counters)
  }

  /** `syncCustomers()`: load the watermark, extract, then `CompleteRun`. `c` holds the
      counters left by earlier calls, which are never reset. */
  method SyncCustomers(cfg: Config, store: StoreFile, source: Source, ghost bound: nat, answers: Answers,
                       parse: DateParser, fault: Option<WriteFault>, c: Counters)
    returns (run: RunOutcome, fetched: Result<seq<SourceRecord>, string>, requests: seq<PageRequest>)
    requires cfg.chunkSize > 0
    requires Final(source(PageRequest(PageSize * bound, LoadLastSyncDate(store))))
    ensures FetchSpec(source, LoadLastSyncDate(store), requests, fetched)
    ensures run == CompleteRun(cfg, store, LoadLastSyncDate(store), fetched, answers, parse, fault, c)
  {
    var lastSyncDate := LoadLastSyncDate(store);
    fetched, requests := FetchAllCustomers(source, lastSyncDate, bound);
    run := CompleteRun(cfg, store, lastSyncDate, fetched, answers, parse, fault, c);
  }

  /** A reported run over customers none of which has a truthy `updatedAt` saves null: the
      watermark is erased, and the next run's extraction is unfiltered. */
  lemma NoTimestampsEraseWatermark(cfg: Config, store: StoreFile, lastSyncDate: Option<string>,
                                   xs: seq<SourceRecord>, answers: Answers, parse: DateParser, c: Counters)
    requires cfg.chunkSize > 0 && xs != [] && AllSettle(cfg.endpoint, xs, answers)
    requires forall j :: 0 <= j < |xs| ==> !HasUpdatedAt(xs[j])
    ensures var run := CompleteRun(cfg, store, lastSyncDate, Success(xs), answers, parse, None, c);
      run.Reported? && run.store == Saved(None) && LoadLastSyncDate(run.store).None?
  {
  }

  /** A second call starts from the first call's counters, so its update, create and error
      counts include both batches, while `numChunks` only reflects the second batch; its
      watermark is computed from the one the first call saved. */
  lemma SecondRunAccumulates(cfg: Config, store: StoreFile, xs: seq<SourceRecord>, ys: seq<SourceRecord>,
                             answers: Answers, parse: DateParser, c: Counters)
    requires cfg.chunkSize > 0 && xs != [] && ys != []
    requires AllSettle(cfg.endpoint, xs, answers) && AllSettle(cfg.endpoint, ys, answers)
    ensures var run1 := CompleteRun(cfg, store, LoadLastSyncDate(store), Success(xs), answers, parse, None, c);
      var run2 := CompleteRun(cfg, run1.store, LoadLastSyncDate(run1.store), Success(ys), answers, parse, None, run1.counters);
      && run1.Reported? && run2.Reported?
      && Handled(run2.counters) == Handled(c) + |xs| + |ys|
      && LoadLastSyncDate(run2.store) == CalculateMaxUpdatedAt(ys, CalculateMaxUpdatedAt(xs, LoadLastSyncDate(store), parse), parse)
      && run2.counters.chunks == Min(cfg.chunkSize, |ys|)
  {
    var run1 := CompleteRun(cfg, store, LoadLastSyncDate(store), Success(xs), answers, parse, None, c);
    assert run1.Reported? && Handled(run1.counters) == Handled(c) + |xs|;
    assert LoadLastSyncDate(run1.store) == CalculateMaxUpdatedAt(xs, LoadLastSyncDate(store), parse);
    var run2 := CompleteRun(cfg, run1.store, LoadLastSyncDate(run1.store), Success(ys), answers, parse, None, run1.counters);
    assert run2.Reported? && Handled(run2.counters) == Handled(run1.counters) + |ys|;
  }
}

=== FILE: watermark.dfy ===
/** The watermark of utils.js: `calculateMaxUpdatedAt` and the single-slot store behind
    `saveLastSyncDate` / `loadLastSyncDate`. */
module Watermark {
  import opened Wrappers
  import opened Customers

  /** `Date.parse`, left uninterpreted; `None` stands for NaN. */
  type DateParser = string -> Option<int>

  /** `Date.parse(lastSyncDate)`: a null watermark parses to NaN. */
  function ParseWatermark(parse: DateParser, lastSyncDate: Option<string>): Option<int> {
    if lastSyncDate.Some? then parse(lastSyncDate.value) else None
  }

  /** JavaScript's `a > b` on two parsed dates: false as soon as either side is NaN. */
  predicate Later(a: Option<int>, b: Option<int>) {
    a.Some? && b.Some? && a.value > b.value
  }

  /** The loop state of `calculateMaxUpdatedAt`. */
  datatype Scan = Scan(maxUpdatedAt: Option<string>, noNewUpdates: bool)

  /** One pass of the loop body. `!maxUpdatedAt` is `maxUpdatedAt.None?` because only truthy
      strings are ever stored, and the candidate is compared with the watermark, not with
      the running result. */
  function Step(s: Scan, r: SourceRecord, parse: DateParser, lastParsed: Option<int>): Scan {
    if HasUpdatedAt(r) && (s.maxUpdatedAt.None? || Later(parse(r.updatedAt.value), lastParsed))
    then Scan(r.updatedAt, false)
    else s
  }

  /** The loop state after the first `n` customers. */
  function ScanPrefix(cs: seq<SourceRecord>, n: nat, parse: DateParser, lastParsed: Option<int>): (s: Scan)
    requires n <= |cs|
    ensures s.noNewUpdates <==> s.maxUpdatedAt.None?
    ensures s.maxUpdatedAt.None? <==> NonePresentBefore(cs, n)
    ensures s.maxUpdatedAt.Some? ==>
      exists j :: 0 <= j < n && HasUpdatedAt(cs[j]) && cs[j].updatedAt == s.maxUpdatedAt
    decreases n
  {
    if n == 0 then Scan(None, true)
    else Step(ScanPrefix(cs, n - 1, parse, lastParsed), cs[n - 1], parse, lastParsed)
  }

  /** `calculateMaxUpdatedAt(customers, lastSyncDate)`. Both branches on `noNewUpdates`
      return the same value; the flag only decides a log line. */
  function CalculateMaxUpdatedAt(cs: seq<SourceRecord>, lastSyncDate: Option<string>, parse: DateParser): (r: Option<string>)
    ensures r.None? <==> forall j :: 0 <= j < |cs| ==> !HasUpdatedAt(cs[j])
    ensures r.Some? ==> r.value != "" && exists j :: 0 <= j < |cs| && cs[j].updatedAt == r
  {
    var s := ScanPrefix(cs, |cs|, parse, ParseWatermark(parse, lastSyncDate));
    if !s.noNewUpdates then s.maxUpdatedAt else s.maxUpdatedAt
  }

  /** No customer before position `n` has a truthy `updatedAt`. */
  ghost predicate NonePresentBefore(cs: seq<SourceRecord>, n: nat)
    requires n <= |cs|
  {
    forall k :: 0 <= k < n ==> !HasUpdatedAt(cs[k])
  }

  /** Customer `j` is taken by the loop: it has a truthy `updatedAt`, and it is either the
      first such customer or it parses strictly later than the watermark. */
  ghost predicate Accepted(cs: seq<SourceRecord>, j: nat, parse: DateParser, lastParsed: Option<int>)
    requires j < |cs|
  {
    HasUpdatedAt(cs[j]) && (NonePresentBefore(cs, j) || Later(parse(cs[j].updatedAt.value), lastParsed))
  }

  /** Customer `j` is the last one accepted among the first `n`. */
  ghost predicate LastAcceptedAt(cs: seq<SourceRecord>, j: nat, n: nat, parse: DateParser, lastParsed: Option<int>)
    requires j < n <= |cs|
  {
    Accepted(cs, j, parse, lastParsed) && forall k :: j < k < n ==> !Accepted(cs, k, parse, lastParsed)
  }

  /** The loop body takes customer `n - 1` exactly when it is accepted, and otherwise keeps
      the running result. */
  lemma StepTakesAccepted(cs: seq<SourceRecord>, n: nat, parse: DateParser, lastParsed: Option<int>)
    requires 0 < n <= |cs|
    ensures Accepted(cs, n - 1, parse, lastParsed) ==>
      ScanPrefix(cs, n, parse, lastParsed).maxUpdatedAt == cs[n - 1].updatedAt
    ensures !Accepted(cs, n - 1, parse, lastParsed) ==>
      ScanPrefix(cs, n, parse, lastParsed) == ScanPrefix(cs, n - 1, parse, lastParsed)
  {
    var prev := ScanPrefix(cs, n - 1, parse, lastParsed);
    assert prev.maxUpdatedAt.None? <==> NonePresentBefore(cs, n - 1);
  }

  /** The loop's result is the `updatedAt` of the LAST accepted customer, in list order,
      and null when no customer is accepted. */
  lemma {:induction false} ScanIsLastAccepted(cs: seq<SourceRecord>, n: nat, parse: DateParser, lastParsed: Option<int>)
    requires n <= |cs|
    ensures ScanPrefix(cs, n, parse, lastParsed).maxUpdatedAt.None? ==>
      forall j :: 0 <= j < n ==> !Accepted(cs, j, parse, lastParsed)
    ensures ScanPrefix(cs, n, parse, lastParsed).maxUpdatedAt.Some? ==>
      exists j :: 0 <= j < n && LastAcceptedAt(cs, j, n, parse, lastParsed)
        && cs[j].updatedAt == ScanPrefix(cs, n, parse, lastParsed).maxUpdatedAt
    decreases n
  {
    if n > 0 {
      ScanIsLastAccepted(cs, n - 1, parse, lastParsed);
      StepTakesAccepted(cs, n, parse, lastParsed);
      var prev := ScanPrefix(cs, n - 1, parse, lastParsed);
      if Accepted(cs, n - 1, parse, lastParsed) {
        assert LastAcceptedAt(cs, n - 1, n, parse, lastParsed);
      } else if prev.maxUpdatedAt.Some? {
        var j :| 0 <= j < n - 1 && LastAcceptedAt(cs, j, n - 1, parse, lastParsed)
          && cs[j].updatedAt == prev.maxUpdatedAt;
        assert LastAcceptedAt(cs, j, n, parse, lastParsed);
      }
    }
  }

  /** With a null or unparseable watermark every later comparison is with NaN, so the
      result is the first truthy `updatedAt` in list order. */
  lemma UnparseableWatermarkTakesFirst(cs: seq<SourceRecord>, lastSyncDate: Option<string>, parse: DateParser, j: nat)
    requires ParseWatermark(parse, lastSyncDate).None?
    requires j < |cs| && HasUpdatedAt(cs[j]) && NonePresentBefore(cs, j)
    ensures CalculateMaxUpdatedAt(cs, lastSyncDate, parse) == cs[j].updatedAt
  {
    var lastParsed := ParseWatermark(parse, lastSyncDate);
    ScanIsLastAccepted(cs, |cs|, parse, lastParsed);
    assert Accepted(cs, j, parse, lastParsed);
    forall i | 0 <= i < |cs|
      ensures Accepted(cs, i, parse, lastParsed) ==> i == j
    {
      if i < j {
        assert !HasUpdatedAt(cs[i]);
      } else if i > j {
        assert !NonePresentBefore(cs, i);
      }
    }
  }

  /** The parsed times of all customers, which all have a parseable `updatedAt`. */
  ghost predicate AllParseable(cs: seq<SourceRecord>, parse: DateParser) {
    forall j :: 0 <= j < |cs| ==> HasUpdatedAt(cs[j]) && parse(cs[j].updatedAt.value).Some?
  }

  /** The hypotheses under which the documented "maximum" is what the loop returns: every
      `updatedAt` parses, the list is sorted ascending by parsed time, and the last one is
      strictly later than the watermark. */
  lemma SortedInputGivesMaximum(cs: seq<SourceRecord>, lastSyncDate: Option<string>, parse: DateParser)
    requires |cs| > 0 && AllParseable(cs, parse)
    requires forall i, j :: 0 <= i < j < |cs| ==>
      parse(cs[i].updatedAt.value).value <= parse(cs[j].updatedAt.value).value
    requires Later(parse(cs[|cs| - 1].updatedAt.value), ParseWatermark(parse, lastSyncDate))
    ensures CalculateMaxUpdatedAt(cs, lastSyncDate, parse) == cs[|cs| - 1].updatedAt
    ensures forall j :: 0 <= j < |cs| ==>
      parse(cs[j].updatedAt.value).value <= parse(CalculateMaxUpdatedAt(cs, lastSyncDate, parse).value).value
  {
    var lastParsed := ParseWatermark(parse, lastSyncDate);
    assert ScanPrefix(cs, |cs|, parse, lastParsed).maxUpdatedAt == cs[|cs| - 1].updatedAt;
  }

  /** A record used in the two counterexamples below. */
  function Stamped(u: string): SourceRecord {
    SourceRecord("c", "", 0, 0, Some(u))
  }

  /** Without sorted input the result is not the maximum: of two customers both newer than
      the watermark, the later one in the list wins even though it is older. */
  lemma ResultNeedNotBeMaximum()
    ensures var parse: DateParser := s => if s == "t2" then Some(2) else if s == "t1" then Some(1) else Some(0);
      CalculateMaxUpdatedAt([Stamped("t2"), Stamped("t1")], Some("t0"), parse) == Some("t1")
      && parse("t2").value > parse("t1").value
  {
    var parse: DateParser := s => if s == "t2" then Some(2) else if s == "t1" then Some(1) else Some(0);
    var cs := [Stamped("t2"), Stamped("t1")];
    assert ScanPrefix(cs, 1, parse, Some(0)).maxUpdatedAt == Some("t2");
  }

  /** The first truthy `updatedAt` is taken even when it is older than the watermark, so
      the saved watermark can move backwards. */
  lemma WatermarkCanMoveBackwards()
    ensures var parse: DateParser := s => if s == "t2" then Some(2) else if s == "t1" then Some(1) else Some(0);
      CalculateMaxUpdatedAt([Stamped("t1")], Some("t2"), parse) == Some("t1")
      && parse("t1").value < parse("t2").value
  {
    var parse: DateParser := s => if s == "t2" then Some(2) else if s == "t1" then Some(1) else Some(0);
    assert ScanPrefix([Stamped("t1")], 0, parse, Some(2)).maxUpdatedAt.None?;
  }

  /** The contents of `last_sync_date.json`: missing, not parseable as the expected JSON, or
      `{ "lastSyncDate": d }` as written by `saveLastSyncDate`. */
  datatype StoreFile = Missing | Corrupt | Saved(lastSyncDate: Option<string>)

  /** `loadLastSyncDate`: never throws; a missing or corrupt file reads as null. */
  function LoadLastSyncDate(f: StoreFile): (d: Option<string>)
    ensures d.Some? ==> f == Saved(d)
    ensures f.Saved? ==> d == f.lastSyncDate
  {
    match f
    case Saved(d) => d
    case _ => None
  }

  /** How `fs.writeFileSync` can throw. It opens the file with flag `w`, which truncates it:
      a failure before the open (permissions, a missing directory) leaves the file as it was;
      a failure after it (a full disk, an I/O error) leaves it empty or holding a prefix of
      the JSON text, which lacks the closing brace and so never parses. */
  datatype WriteFault = BeforeOpen(message: string) | AfterTruncate(message: string)

  /** The file after a save, and the error the save threw, if any. */
  datatype Saving = Saving(file: StoreFile, error: Option<string>)

  /** `saveLastSyncDate(d)`; `fault` is how the write fails, if it does. */
  function SaveLastSyncDate(f: StoreFile, d: Option<string>, fault: Option<WriteFault>): (s: Saving)
    ensures s.error.None? <==> fault.None?
    ensures s.error.Some? ==> s.error.value == fault.value.message
    ensures fault.None? ==> LoadLastSyncDate(s.file) == d
    ensures fault.Some? && fault.value.BeforeOpen? ==> s.file == f
    ensures fault.Some? && fault.value.AfterTruncate? ==> LoadLastSyncDate(s.file).None?
  {
    match fault
    case None => Saving(Saved(d), None)
    case Some(BeforeOpen(m)) => Saving(f, Some(m))
    case Some(AfterTruncate(m)) => Saving(Corrupt, Some(m))
  }

  /** Loading never fails, and a successful save is read back exactly, whatever was stored
      before; a write that fails after truncating the file loses the stored date. */
  lemma SaveThenLoad(f: StoreFile, d: Option<string>, m: string)
    ensures !f.Saved? ==> LoadLastSyncDate(f).None?
    ensures SaveLastSyncDate(f, d, None).error.None?
    ensures LoadLastSyncDate(SaveLastSyncDate(f, d, None).file) == d
    ensures LoadLastSyncDate(SaveLastSyncDate(f, d, Some(BeforeOpen(m))).file) == LoadLastSyncDate(f)
    ensures LoadLastSyncDate(SaveLastSyncDate(f, d, Some(AfterTruncate(m))).file).None?
  {
  }
}
